=== FILE: README.md ===
# Heart AR session, modelled in Dafny

A model of the session logic of `HeartManager`, the component of the Heart AR application
that places one anatomical heart on a detected plane, switches it between a beating view and a
labelled cross-section view, and scales it with a two-finger pinch. The engine is abstracted
away: each frame's raycast result, touch count, touch phase and pinch distance are inputs, the
animator's current clip is an explicit mode that `Play` changes at once, and distances and
scales are mathematical reals.

Modules, following the parts of `HeartManager`:

- `Text` — ASCII lower-casing and the ordinal substring test `Contains`, proved equal to the
  slice-based reference definition.
- `Classification` — the twelve keywords and display names and the if/else-if chain that files
  a lower-cased object name under the first keyword it contains.
- `Resolution` — `CacheHeartParts` as a fold over the depth-first traversal of the
  cross-section model into a name-to-anchor table, starting empty. The fold (`ResolveWith`) takes
  the classification as a parameter, so its laws are proved once for any classification and then
  used with the keyword chain.
- `Labels` — the authored offset table (`SetupLabelOffsets`), the offset lookup with its default,
  and `SpawnHeartLabels`.
- `Session` — the immutable session record and one pure function per event or step: `Tick`
  (`Update`: reticle, tap-to-place, pinch), `Toggle` (`OnToggleModePressed`), `Delete`
  (`DeleteHeart`), and the helpers `SetCrossSection` (`ToggleHeartCS`), `PlayCrossSection`,
  `PlayBeating`, `PlaceHeart`, `UpdateReticle` and `Pinch`.
- `SessionProofs` — the session invariant and the properties that span several events.
- `Options`, `Geometry`, `SetFacts` — an option type, a real 3-vector, and two cardinality facts.

The configuration the session starts with is a `Scene`. It says whether a reticle prefab and a
panel prefab are set. It also holds a `HeartPrefab`, which records:

- whether the instantiated heart has an animator;
- whether it has both representations ("heart1" and "heart_cs1");
- the clip its animator starts in;
- its authored scale;
- the traversal of its cross-section children.

Behaviours of `HeartManager` that the model keeps:

- Deleting with no heart placed is not a complete no-op. It still activates the reticle, and
  the next frame hides it again when no plane is hit. Deleting twice in a row does leave the
  state unchanged (`DeleteIdempotent`).
- When a rigged heart is placed and its animator already starts in the beating clip, the
  beating clip is not played again. So the animator keeps its initial speed of 1.0 rather than
  the beating speed of 1.8 (see `PlaceHeart`). Only a later return from the cross-section view
  plays it at 1.8.
- The panel exists only while a heart exists and a panel prefab is configured.
- The toggle button can show the "on" sprite while the view stays beating. This happens when the
  heart has an animator but lacks one of its two representations. The sprite matches the mode
  only for a fully rigged heart (`Toggle`, `HeartInv`).
- The pinch adds to the scale with no clamp, so the scale can reach zero or go negative
  (`PinchUnclamped`).

## Model

| member | source | states |
|---|---|---|
| Text.Lower | Assets/Scripts/HeartManager.cs:321 | lower-casing keeps the length and maps each character to its ASCII lower case |
| Text.LowerIdempotent | Assets/Scripts/HeartManager.cs:321 | lower-casing an already lower-cased name changes nothing |
| Text.Contains | Assets/Scripts/HeartManager.cs:322-333 | the ordinal substring test only holds when the keyword fits in the name |
| Text.ContainsMeansOccurrence | Assets/Scripts/HeartManager.cs:322 | the substring test holds exactly when some slice of the name equals the keyword |
| Classification.FirstKeyword | Assets/Scripts/HeartManager.cs:322-333 | the result is the first keyword index, from the start point, that the name contains; no result means it contains none of them |
| Classification.Classify | Assets/Scripts/HeartManager.cs:321-333 | every name a child can be filed under is one of the twelve display names |
| Classification.ClassifyPriority | Assets/Scripts/HeartManager.cs:321-333 | a name is filed under part k exactly when keyword k is the earliest keyword, in the fixed order, that its lower-cased form contains |
| Classification.ClassifyNone | Assets/Scripts/HeartManager.cs:321-333 | a name is filed nowhere exactly when it contains no keyword |
| Classification.ClassifyIgnoresCase | Assets/Scripts/HeartManager.cs:321 | classification gives the same answer for a name and its lower-cased form |
| Classification.PartNameSetSize | Assets/Scripts/HeartManager.cs:322-333 | there are exactly twelve distinct display names |
| Classification.NoEarlierKeyword | Assets/Scripts/HeartManager.cs:322-333 | no keyword contains an earlier keyword, so the order shadows none of them |
| Classification.KeywordResolvesToItsPart | Assets/Scripts/HeartManager.cs:322-333 | a child named exactly after keyword k is filed under display name k |
| Resolution.ResolveWith | Assets/Scripts/HeartManager.cs:317-334 | the loop over the traversal, from an empty table: every entry binds a name to the node of some child filed under that name |
| Resolution.Resolve | Assets/Scripts/HeartManager.cs:315-334 | the resolved table only has display names as keys, so it has at most twelve parts |
| Resolution.ResolveWithKeys | Assets/Scripts/HeartManager.cs:317-334 | the table built from an empty start only holds names the classification can produce |
| Resolution.ResolveDomain | Assets/Scripts/HeartManager.cs:317-334 | for any classification, a part is resolved exactly when some child of this traversal is filed under it, so nothing stale survives the clear |
| Resolution.ResolveLastWrite | Assets/Scripts/HeartManager.cs:319-334 | a part's anchor is the last child, in traversal order, filed under it |
| Resolution.NoKeywordNoChange | Assets/Scripts/HeartManager.cs:319-334 | a child whose name contains no keyword leaves the table unchanged |
| Resolution.ResolveCoversAll | Assets/Scripts/HeartManager.cs:318-334 | when every display name has a matching child, all twelve parts are resolved |
| Resolution.KeywordModelResolvesAll | Assets/Scripts/HeartManager.cs:318-334 | a model with one child per keyword resolves all twelve parts, each to its own child |
| Labels.SpawnLabels | Assets/Scripts/HeartManager.cs:358-378 | one label per resolved part: its text is the part name, it follows the part's anchor, it keeps the part's offset, and there are as many labels as parts |
| Labels.SpawnCardinality | Assets/Scripts/HeartManager.cs:360-377 | labels are distinct per part name, so their number equals the number of parts |
| Labels.OffsetTableKeys | Assets/Scripts/HeartManager.cs:337-356 | the offset table has twelve entries, one for each display name |
| Labels.OffsetFor | Assets/Scripts/HeartManager.cs:364 | a display name gets its authored offset; exactly the other names get the default (0.2, 0.1, 0.5) |
| Labels.AuthoredOffsetsBehind | Assets/Scripts/HeartManager.cs:341-355 | every authored offset has a negative z, unlike the default |
| Labels.ResolvedPartsHaveAuthoredOffsets | Assets/Scripts/HeartManager.cs:358-365 | every spawned label uses its authored offset and never the default |
| Labels.OffsetSides | Assets/Scripts/HeartManager.cs:341-355 | the six left-side names have a negative x offset; the six right-side names have a positive one |
| Session.Start | Assets/Scripts/HeartManager.cs:55-75 | the session starts with no heart, both buttons hidden, the toggle "off", no labels and the reticle inactive |
| Session.PlayCrossSection | Assets/Scripts/HeartManager.cs:267-277 | entering the cross-section plays its clip at speed 1 and re-resolves the parts from the model; it adds one label per part and points the panel at the cross-section sprite; nothing else changes |
| Session.PlayBeating | Assets/Scripts/HeartManager.cs:279-291 | entering the beating view destroys every label, plays the beating clip at 1.8 and points the panel at the beating sprite; nothing else changes |
| Session.SetCrossSection | Assets/Scripts/HeartManager.cs:251-265 | a rigged heart ends in the requested mode; a request for the mode already playing, or with no rigged heart, changes nothing |
| Session.Toggle | Assets/Scripts/HeartManager.cs:236-249 | it is a no-op with no heart or no animator; otherwise the button shows the requested mode, and a rigged heart flips its mode with the sprite matching it |
| Session.UpdateReticle | Assets/Scripts/HeartManager.cs:120-139 | an existing reticle is shown exactly when no heart is placed and the raycast hits |
| Session.PlaceHeart | Assets/Scripts/HeartManager.cs:141-187 | placement creates the heart and its light and shows both buttons with the toggle "off" and the reticle hidden; a rigged heart beats; labels are never added; a configured panel appears showing the beating sprite; the part table is untouched |
| Session.Pinch | Assets/Scripts/HeartManager.cs:212-234 | the baseline resets unless two touches and a heart are present; the first frame of a gesture keeps the scale; later frames add (current - previous) x 0.001 to every axis |
| Session.Tick | Assets/Scripts/HeartManager.cs:77-90 | a heart is placed exactly when none exists, one touch begins, the reticle exists and the raycast hits, and placement shows both buttons, creates the light, sets the toggle "off" and makes a rigged heart beat; a frame that places nothing changes only the reticle and resets the baseline; with a heart placed, only the heart, the reticle and the baseline can change; an existing heart is kept unchanged except on a two-touch frame that continues a pinch, where every scale axis grows by (distance - baseline) × 0.001; the reticle and pinch baseline follow the rules above |
| Session.Delete | Assets/Scripts/HeartManager.cs:189-210 | delete removes the heart, light, panel and every label, hides both buttons and shows the reticle; nothing else changes |
| SessionProofs.StartInv | Assets/Scripts/HeartManager.cs:55-75 | the start state satisfies the session invariant |
| SessionProofs.PlaceHeartInv | Assets/Scripts/HeartManager.cs:141-168 | placing from an invariant state keeps the invariant and leaves no labels |
| SessionProofs.TickInv | Assets/Scripts/HeartManager.cs:77-90 | a frame preserves the session invariant |
| SessionProofs.ToggleInv | Assets/Scripts/HeartManager.cs:236-291 | a toggle preserves the session invariant |
| SessionProofs.DeleteInv | Assets/Scripts/HeartManager.cs:189-210 | a delete preserves the session invariant |
| SessionProofs.DeleteIdempotent | Assets/Scripts/HeartManager.cs:189-210 | deleting twice is the same as deleting once |
| SessionProofs.FramesKeepHeart | Assets/Scripts/HeartManager.cs:81-90 | once a heart is placed, no run of frames places a second one; the heart keeps its prefab, clip and speed, and only its scale changes |
| SessionProofs.ToggleTwiceFromBeating | Assets/Scripts/HeartManager.cs:236-291 | from the beating view, one toggle shows one label per resolved part (at most twelve) and a second returns to beating with no labels and the toggle "off" |
| SessionProofs.ToggleTwiceFromCrossSection | Assets/Scripts/HeartManager.cs:236-291 | from the cross-section view, toggling twice restores the session exactly |
| SessionProofs.Step | Assets/Scripts/HeartManager.cs:81 | only a frame with one touch, no heart and no reticle prefab cannot be taken |
| SessionProofs.RunInv | Assets/Scripts/HeartManager.cs:77-291 | any sequence of frames, deletes and toggles preserves the invariant |
| SessionProofs.ReachableInv | Assets/Scripts/HeartManager.cs:55-291 | every reachable session satisfies the invariant. So there is at most one heart. The light, panel and buttons exist with it. Labels exist only in the cross-section view, one per part. For a heart with an animator and both views, the sprites reflect the actual clip |
| SessionProofs.FirstTapPlacesHeart | Assets/Scripts/HeartManager.cs:81-87 | a tap on a plane right after start places a beating heart, shows the buttons and hides the reticle; repeating the tap changes nothing |
| SessionProofs.PinchGesture | Assets/Scripts/HeartManager.cs:212-233 | a two-frame pinch leaves the scale alone on its first frame and adds (d2 - d1) x 0.001 on the second |
| SessionProofs.TwelveLabelsScenario | Assets/Scripts/HeartManager.cs:267-291 | with a child for every keyword, toggling spawns exactly twelve labels and toggling back leaves none |
| SessionProofs.PinchUnclamped | Assets/Scripts/HeartManager.cs:221-226 | the scale has no lower clamp: pinching in far enough makes it non-positive |

## Left out

- The plane raycast and touch input (`ARRaycastManager.Raycast`, `Input.GetTouch`) are per-frame
  inputs: a hit flag, the touch count, the first touch's phase and the distance between the
  first two touches.
- The animator is an explicit mode and speed. `Play` takes effect immediately. Clip-info lag and
  an empty clip-info array are engine behaviour.
- Engine `Destroy` is deferred. `ToggleHeartCS(false)` inside `DeleteHeart` acts on objects that
  are still being destroyed. Only the state after `DeleteHeart` is modelled.
- Positions and rotations are not modelled. This covers the placement height (0.25), the -150°
  yaw, the reticle pose, the light offset and its follow, and the panel's follow by `Lerp` and
  `LookRotation`. These are single-precision vector and quaternion expressions.
- `SmoothScrollToSprite` is not modelled as a timed animation. Its 0.65-unit time-driven scroll
  is replaced by `panel`, which records the sprite the panel shows or is scrolling to.
- `LabelFollow` positioning, billboarding, background sizing and leader lines are left out. They
  are rendering and float vector math over engine components.
- `HeartManipulator` (single-touch rotation), `CamRotation`, `Billboard` and `HeartCSRendererFix`
  are left out. Apart from caching their components and a starting offset, they hold no logic
  beyond single vector and quaternion expressions.
- Culture-sensitive `ToLower` is modelled as ASCII lower-casing.
- Single-precision rounding is not modelled. Distances, scales and offsets are reals.
- Missing scene references that the code dereferences without a check are treated as present:
  the heart prefab (line 143), the light prefab, the delete and toggle buttons (lines 60-64),
  the raycast manager (line 129), the label prefab and its `TextMeshPro` (line 368), the toggle
  button's image, and the panel's scroll rect.
  The missing reticle at `Update`'s tap check is the exception. It is the precondition
  `CanTick`, and `Step` reports it as a frame the session cannot take.
- Some references the code does check are also treated as present. `panelImage` gates the scroll requests in `PlayHeartCSAnimation` and
  `PlayHeartBeatAnimation` (lines 274 and 290), yet `panel` always records the new sprite.
  `imageCurrent` and `heartBeatSprite` gate the first sprite in `SetupUIPanel` (line 184), yet
  `PlaceHeart` always sets the panel to the beating sprite. `SmoothScrollToSprite` gives up
  when `imageCurrent`, `imageNext` or `contentTransform` is missing (line 298), yet `panel`
  records the new sprite. A label without a `LabelFollow` is never initialised (line 371), yet
  `SpawnLabels` gives every label its anchor and offset.
- Labels.SpawnLabels: the order of the label list is not modelled. Labels form a set. The list
  is only ever appended to while empty (by the invariant) and is always cleared as a whole.
- Labels.SpawnLabels: the loop's null-anchor skip is not modelled. Every anchor comes from the
  traversal done just before, so it is always live.
- The anchors are the prefab's child ids, reused for each instantiation. Label identity across
  placements is not modelled.

=== FILE: classify.dfy ===
/** Keyword classification of object names (the if/else-if chain of
    `HeartManager.CacheHeartParts`): a name is lower-cased and filed under the display name of
    the first keyword, in a fixed order, that it contains. */
module Classification {
  import opened Options
  import opened Text
  import opened SetFacts

  /** The keywords, in the order the classification tests them (the misspelling "ventrical"
      is the spelling `HeartManager` tests for, and the one the model's object names carry). */
  const Keywords: seq<string> := [
    "aorta", "pulmonary_artery", "left_ventrical", "right_ventrical",
    "left_atrium", "right_atrium", "aortic_valve1", "pulmonary_valve1",
    "tricuspid_valve", "mitral_valve", "cardiac_nerves_01", "vein2"
  ]

  /** The display name each keyword resolves to, index for index. */
  const PartNames: seq<string> := [
    "Aorta", "Pulmonary Artery", "Left Ventricle", "Right Ventricle",
    "Left Atrium", "Right Atrium", "Aortic Valve", "Pulmonary Valve",
    "Tricuspid Valve", "Mitral Valve", "Cardiac Nerves", "Veins"
  ]

  const PartNameSet: set<string> := set n | n in PartNames

  /** Keyword `k` is the first keyword of the list that `lower` contains. */
  ghost predicate FirstMatch(lower: string, k: int) {
    && 0 <= k < |Keywords|
    && Contains(lower, Keywords[k])
    && forall j :: 0 <= j < k ==> !Contains(lower, Keywords[j])
  }

  /** `lower` contains none of the keywords. */
  ghost predicate NoMatch(lower: string) {
    forall j :: 0 <= j < |Keywords| ==> !Contains(lower, Keywords[j])
  }

  lemma PartNamesDistinct()
    ensures Distinct(PartNames)
  {
  }

  /** The index of the first keyword, at or after `from`, that `lower` contains. */
  function FirstKeyword(lower: string, from: nat): (r: Option<nat>)
    requires from <= |Keywords|
    ensures r.Some? ==> from <= r.value < |Keywords| && Contains(lower, Keywords[r.value])
    ensures r.Some? ==> forall j :: from <= j < r.value ==> !Contains(lower, Keywords[j])
    ensures r.None? ==> forall j :: from <= j < |Keywords| ==> !Contains(lower, Keywords[j])
    decreases |Keywords| - from
  {
    if from == |Keywords| then None
    else if Contains(lower, Keywords[from]) then Some(from)
    else FirstKeyword(lower, from + 1)
  }

  /** The display name a child with this name is filed under, if any: the if/else-if chain
      of `CacheHeartParts`, so the earliest keyword in the list wins. */
  function Classify(name: string): (r: Option<string>)
    ensures r.Some? ==> r.value in PartNameSet
  {
    match FirstKeyword(Lower(name), 0)
    case None => None
    case Some(k) => Some(PartNames[k])
  }

  /** There are exactly twelve display names, so a resolved table has at most twelve parts. */
  lemma PartNameSetSize()
    ensures |PartNameSet| == 12
  {
    PartNamesDistinct();
    DistinctSeqCardinality(PartNames);
  }

  /** Classification is case-insensitive: the name is lower-cased before matching. */
  lemma ClassifyIgnoresCase(name: string)
    ensures Classify(Lower(name)) == Classify(name)
  {
    LowerIdempotent(name);
  }

  /** Keyword priority: a name is filed under display name `k` exactly when keyword `k` is
      the FIRST keyword, in the fixed order, that its lower-cased form contains; later
      keywords it also contains are ignored. */
  lemma ClassifyPriority(name: string, k: int)
    requires 0 <= k < |PartNames|
    ensures Classify(name) == Some(PartNames[k]) <==> FirstMatch(Lower(name), k)
  {
    PartNamesDistinct();
  }

  /** A name containing no keyword is not filed at all. */
  lemma ClassifyNone(name: string)
    ensures Classify(name).None? <==> NoMatch(Lower(name))
  {
  }

  /** No keyword contains an earlier keyword, so none of them is shadowed by the order. */
  lemma NoEarlierKeyword(k: int)
    requires 0 <= k < |Keywords|
    ensures forall j :: 0 <= j < k ==> !Contains(Keywords[k], Keywords[j])
  {
    forall j | 0 <= j < k
      ensures !Contains(Keywords[k], Keywords[j])
    {
      if |Keywords[j]| <= |Keywords[k]| {
        ShortKeywordAbsent(k, j);
      }
    }
  }

  /** The pairs the length argument leaves open, checked one by one. */
  lemma ShortKeywordAbsent(k: int, j: int)
    requires 0 <= j < k < |Keywords| && |Keywords[j]| <= |Keywords[k]|
    ensures !Contains(Keywords[k], Keywords[j])
  {
    if k == 1 && j == 0 {
      assert !ContainsFrom("pulmonary_artery", "aorta", 6);
      assert !Contains("pulmonary_artery", "aorta");
    } else if k == 2 && j == 0 {
      assert !ContainsFrom("left_ventrical", "aorta", 6);
      assert !Contains("left_ventrical", "aorta");
    } else if k == 3 && j == 0 {
      assert !ContainsFrom("right_ventrical", "aorta", 6);
      assert !Contains("right_ventrical", "aorta");
    } else if k == 3 && j == 2 {
      assert !Contains("right_ventrical", "left_ventrical");
    } else if k == 4 && j == 0 {
      assert !Contains("left_atrium", "aorta");
    } else if k == 5 && j == 0 {
      assert !Contains("right_atrium", "aorta");
    } else if k == 5 && j == 4 {
      assert !Contains("right_atrium", "left_atrium");
    } else if k == 6 && j == 0 {
      assert !Contains("aortic_valve1", "aorta");
    } else if k == 6 && j == 4 {
      assert !Contains("aortic_valve1", "left_atrium");
    } else if k == 6 && j == 5 {
      assert !Contains("aortic_valve1", "right_atrium");
    } else if k == 7 && j == 0 {
      assert !ContainsFrom("pulmonary_valve1", "aorta", 6);
      assert !Contains("pulmonary_valve1", "aorta");
    } else if k == 7 && j == 1 {
      assert !MatchesFrom("pulmonary_valve1", "pulmonary_artery", 0, 10);
      assert !Contains("pulmonary_valve1", "pulmonary_artery");
    } else if k == 7 && j == 2 {
      assert !Contains("pulmonary_valve1", "left_ventrical");
    } else if k == 7 && j == 3 {
      assert !Contains("pulmonary_valve1", "right_ventrical");
    } else if k == 7 && j == 4 {
      assert !Contains("pulmonary_valve1", "left_atrium");
    } else if k == 7 && j == 5 {
      assert !Contains("pulmonary_valve1", "right_atrium");
    } else if k == 7 && j == 6 {
      assert !Contains("pulmonary_valve1", "aortic_valve1");
    } else if k == 8 && j == 0 {
      assert !ContainsFrom("tricuspid_valve", "aorta", 6);
      assert !Contains("tricuspid_valve", "aorta");
    } else if k == 8 && j == 2 {
      assert !Contains("tricuspid_valve", "left_ventrical");
    } else if k == 8 && j == 3 {
      assert !Contains("tricuspid_valve", "right_ventrical");
    } else if k == 8 && j == 4 {
      assert !Contains("tricuspid_valve", "left_atrium");
    } else if k == 8 && j == 5 {
      assert !Contains("tricuspid_valve", "right_atrium");
    } else if k == 8 && j == 6 {
      assert !Contains("tricuspid_valve", "aortic_valve1");
    } else if k == 9 && j == 0 {
      assert !Contains("mitral_valve", "aorta");
    } else if k == 9 && j == 4 {
      assert !Contains("mitral_valve", "left_atrium");
    } else if k == 9 && j == 5 {
      assert !Contains("mitral_valve", "right_atrium");
    } else if k == 10 && j == 0 {
      CardiacNervesLacksAorta();
    } else if k == 10 && j == 1 {
      assert !Contains("cardiac_nerves_01", "pulmonary_artery");
    } else if k == 10 && j == 2 {
      assert !Contains("cardiac_nerves_01", "left_ventrical");
    } else if k == 10 && j == 3 {
      assert !Contains("cardiac_nerves_01", "right_ventrical");
    } else if k == 10 && j == 4 {
      assert !Contains("cardiac_nerves_01", "left_atrium");
    } else if k == 10 && j == 5 {
      assert !Contains("cardiac_nerves_01", "right_atrium");
    } else if k == 10 && j == 6 {
      assert !Contains("cardiac_nerves_01", "aortic_valve1");
    } else if k == 10 && j == 7 {
      assert !Contains("cardiac_nerves_01", "pulmonary_valve1");
    } else if k == 10 && j == 8 {
      assert !Contains("cardiac_nerves_01", "tricuspid_valve");
    } else if k == 10 && j == 9 {
      assert !Contains("cardiac_nerves_01", "mitral_valve");
    } else if k == 11 && j == 0 {
      assert !Contains("vein2", "aorta");
    }
  }

  lemma CardiacNervesLacksAorta()
    ensures !Contains("cardiac_nerves_01", "aorta")
  {
    assert !ContainsFrom("cardiac_nerves_01", "aorta", 6);
  }

  lemma KeywordsAreLowerCase(k: int)
    requires 0 <= k < |Keywords|
    ensures IsLowerCase(Keywords[k])
  {
  }

  /** Every keyword is reachable: a child named exactly after keyword `k` is filed under
      display name `k`, so a model carrying all twelve names resolves all twelve parts. */
  lemma KeywordResolvesToItsPart(k: int)
    requires 0 <= k < |Keywords|
    ensures Classify(Keywords[k]) == Some(PartNames[k])
  {
    KeywordsAreLowerCase(k);
    LowerFixesLowerCase(Keywords[k]);
    ContainsSelf(Keywords[k]);
    NoEarlierKeyword(k);
    assert FirstMatch(Lower(Keywords[k]), k);
    ClassifyPriority(Keywords[k], k);
  }
}

=== FILE: geometry.dfy ===
/** Three-component vectors over the mathematical reals, standing in for the engine's
    single-precision `Vector3`. Rounding is not modelled. */
module Geometry {

  datatype Vec3 = Vec3(x: real, y: real, z: real) {

    /** `this + Vector3.one * d`: the same amount added to every axis. */
    function AddUniform(d: real): (r: Vec3)
      ensures r.x - x == r.y - y == r.z - z == d
    {
      Vec3(x + d, y + d, z + d)
    }
  }
}

=== FILE: labels.dfy ===
/** Label layout (`HeartManager.SetupLabelOffsets` and `SpawnHeartLabels`): a fixed table of
    hand-authored offsets, one per display name, and one label per resolved part placed at its
    anchor plus the part's offset. */
module Labels {
  import opened Geometry
  import opened SetFacts
  import opened Classification
  import opened Resolution

  /** The offset used for a name the table does not list (also `LabelFollow`'s initial value). */
  const DefaultOffset: Vec3 := Vec3(0.2, 0.1, 0.5)

  /** The authored offsets: the first six sit to the left of the model, the rest to the right. */
  const LabelOffsets: map<string, Vec3> := map[
    "Cardiac Nerves" := Vec3(-0.5, 0.25, -0.75),
    "Right Atrium" := Vec3(-0.65, 0.3, -0.5),
    "Aortic Valve" := Vec3(-1.25, 0.0, -0.5),
    "Right Ventricle" := Vec3(-0.5, 0.2, -0.75),
    "Tricuspid Valve" := Vec3(-0.7, 0.0, -0.75),
    "Veins" := Vec3(-0.75, 0.0, -0.4),
    "Aorta" := Vec3(0.5, 0.65, -0.4),
    "Pulmonary Artery" := Vec3(0.6, 0.7, -0.75),
    "Pulmonary Valve" := Vec3(0.75, 0.6, -0.75),
    "Left Atrium" := Vec3(0.7, 0.2, -0.5),
    "Left Ventricle" := Vec3(0.75, 0.25, -0.75),
    "Mitral Valve" := Vec3(0.9, 0.1, -0.75)
  ]

  /** The offset of a part's label, falling back to the default for an unlisted name: a
      display name gets its authored offset, which is never the default, and any other name
      gets the default. */
  function OffsetFor(name: string): (r: Vec3)
    ensures name in PartNameSet ==> r == LabelOffsets[name]
    ensures r == DefaultOffset <==> name !in PartNameSet
  {
    OffsetTableKeys();
    AuthoredOffsetsBehind();
    if name in LabelOffsets then LabelOffsets[name] else DefaultOffset
  }

  /** A spawned label: its text, the anchor it follows and the offset it keeps from it. */
  datatype Label = Label(text: string, anchor: NodeId, offset: Vec3)

  /** The label `SpawnHeartLabels` creates for part `key` of `parts`. */
  function LabelFor(parts: map<string, NodeId>, key: string): Label
    requires key in parts
  {
    Label(key, parts[key], OffsetFor(key))
  }

  /** One label per resolved part. (Every anchor is a live child of the model that was just
      traversed, so the loop's null check never skips a part.) */
  function SpawnLabels(parts: map<string, NodeId>): (r: set<Label>)
    ensures forall l :: l in r ==> l.text in parts && l == LabelFor(parts, l.text)
    ensures forall key :: key in parts ==> LabelFor(parts, key) in r
    ensures |r| == |parts|
  {
    var r := set key | key in parts :: LabelFor(parts, key);
    SpawnCardinality(parts);
    r
  }

  /** Labels are keyed by their text, so there are exactly as many labels as parts. */
  lemma {:induction false} SpawnCardinality(parts: map<string, NodeId>)
    ensures |set key | key in parts :: LabelFor(parts, key)| == |parts|
    decreases |parts|
  {
    if |parts| > 0 {
      var key :| key in parts;
      var rest := parts - {key};
      SpawnCardinality(rest);
      var labels := set k | k in parts :: LabelFor(parts, k);
      var restLabels := set k | k in rest :: LabelFor(rest, k);
      forall l | l in labels
        ensures l in restLabels + {LabelFor(parts, key)}
      {
        var k :| k in parts && l == LabelFor(parts, k);
        if k != key {
          assert l == LabelFor(rest, k);
        }
      }
      forall l | l in restLabels
        ensures l in labels
      {
        var k :| k in rest && l == LabelFor(rest, k);
        assert l == LabelFor(parts, k);
      }
      assert labels == restLabels + {LabelFor(parts, key)};
      assert LabelFor(parts, key) !in restLabels;
    }
  }

  /** The offset table lists exactly the twelve display names part resolution can produce. */
  lemma OffsetTableKeys()
    ensures LabelOffsets.Keys == PartNameSet
    ensures |LabelOffsets| == 12
  {
    PartNameSetSize();
  }

  /** Every authored offset has a negative z, where the default's is positive. */
  lemma AuthoredOffsetsBehind()
    ensures forall name :: name in LabelOffsets ==> LabelOffsets[name].z < 0.0
  {
  }

  /** The parts a traversal resolves are always labelled at their authored offsets; the
      fallback is never used for them. */
  lemma ResolvedPartsHaveAuthoredOffsets(children: seq<Child>)
    ensures forall l :: l in SpawnLabels(Resolve(children)) ==>
      l.text in LabelOffsets && l.offset == LabelOffsets[l.text]
  {
    OffsetTableKeys();
  }

  /** The names whose labels sit on the left of the model. */
  const LeftSide: set<string> := {
    "Cardiac Nerves", "Right Atrium", "Aortic Valve", "Right Ventricle", "Tricuspid Valve", "Veins"
  }

  /** The left group is offset towards negative x, the right group towards positive x. */
  lemma OffsetSides(name: string)
    requires name in LabelOffsets
    ensures LabelOffsets[name].x < 0.0 <==> name in LeftSide
    ensures LabelOffsets[name].x > 0.0 <==> name !in LeftSide
  {
  }
}

=== FILE: options.dfy ===
/** The absent-or-present values the session uses in place of nullable references. */
module Options {

  /** `None` stands for a null (or destroyed) reference, `Some(v)` for a live one. */
  datatype Option<+T> = None | Some(value: T)
}

=== FILE: resolve.dfy ===
/** Anatomical part resolution (`HeartManager.CacheHeartParts`): the children of the
    cross-section model are visited in traversal order and each classified child is bound to
    its display name in a table that starts empty, later children overwriting earlier ones.
    The laws of the traversal hold for any classification of names; `Resolve` uses the
    keyword classification. */
module Resolution {
  import opened Options
  import opened SetFacts
  import opened Text
  import opened Classification

  /** Identity of a transform in the cross-section hierarchy (an opaque, non-owning reference). */
  type NodeId = nat

  /** One entry of the depth-first traversal of the cross-section model. */
  datatype Child = Child(name: string, node: NodeId)

  /** How a child's name is filed: the display name it is stored under, if any. */
  type Classifier = string -> Option<string>

  /** Some child of the traversal is filed under display name `key`. */
  ghost predicate HasChildFor(classify: Classifier, children: seq<Child>, key: string) {
    exists j :: 0 <= j < |children| && classify(children[j].name) == Some(key)
  }

  /** One step of the traversal loop: file `c` under its display name, overwriting. */
  function Assign(classify: Classifier, parts: map<string, NodeId>, c: Child): map<string, NodeId> {
    match classify(c.name)
    case None => parts
    case Some(key) => parts[key := c.node]
  }

  /** The table after visiting `children` in order, starting from an empty table: every
      entry binds a display name to the node of some child filed under it. */
  function ResolveWith(classify: Classifier, children: seq<Child>): (r: map<string, NodeId>)
    ensures forall key :: key in r ==>
      exists j :: 0 <= j < |children| && classify(children[j].name) == Some(key) && children[j].node == r[key]
    decreases |children|
  {
    if |children| == 0 then map[]
    else
      var prefix := children[..|children| - 1];
      assert forall j :: 0 <= j < |prefix| ==> prefix[j] == children[j];
      Assign(classify, ResolveWith(classify, prefix), children[|children| - 1])
  }

  /** The part table `CacheHeartParts` builds (`heartParts.Clear()` precedes the loop): its
      keys are display names, so it has at most twelve entries. */
  function Resolve(children: seq<Child>): (r: map<string, NodeId>)
    ensures r.Keys <= PartNameSet
    ensures |r| <= 12
  {
    var r := ResolveWith(Classify, children);
    ResolveWithKeys(Classify, children, PartNameSet);
    PartNameSetSize();
    SubsetCardinality(r.Keys, PartNameSet);
    r
  }

  /** The table only holds names the classification can produce. */
  lemma {:induction false} ResolveWithKeys(classify: Classifier, children: seq<Child>, names: set<string>)
    requires forall n :: classify(n).Some? ==> classify(n).value in names
    ensures ResolveWith(classify, children).Keys <= names
    decreases |children|
  {
    if |children| > 0 {
      ResolveWithKeys(classify, children[..|children| - 1], names);
    }
  }

  /** The last index at or after `j` whose child is filed under `key`. */
  ghost function LastClassified(classify: Classifier, children: seq<Child>, j: int, key: string): (last: int)
    requires 0 <= j < |children| && classify(children[j].name) == Some(key)
    ensures j <= last < |children| && classify(children[last].name) == Some(key)
    ensures forall i :: last < i < |children| ==> classify(children[i].name) != Some(key)
    decreases |children| - j
  {
    if forall i :: j < i < |children| ==> classify(children[i].name) != Some(key) then j
    else
      var i :| j < i < |children| && classify(children[i].name) == Some(key);
      LastClassified(classify, children, i, key)
  }

  /** Last write wins: the anchor bound to a display name is the LAST child, in traversal
      order, that is filed under it. */
  lemma {:induction false} ResolveLastWrite(classify: Classifier, children: seq<Child>, j: int, key: string)
    requires 0 <= j < |children| && classify(children[j].name) == Some(key)
    requires forall i :: j < i < |children| ==> classify(children[i].name) != Some(key)
    ensures key in ResolveWith(classify, children)
    ensures ResolveWith(classify, children)[key] == children[j].node
    decreases |children|
  {
    var n := |children| - 1;
    if j < n {
      var prefix := children[..n];
      assert prefix[j] == children[j];
      forall i | j < i < |prefix|
        ensures classify(prefix[i].name) != Some(key)
      {
        assert prefix[i] == children[i];
      }
      ResolveLastWrite(classify, prefix, j, key);
    }
  }

  /** A display name is resolved exactly when some child of this traversal is filed under
      it, and then to the last such child. */
  lemma ResolveDomain(classify: Classifier, children: seq<Child>, key: string)
    ensures key in ResolveWith(classify, children) <==> HasChildFor(classify, children, key)
  {
    if HasChildFor(classify, children, key) {
      var j :| 0 <= j < |children| && classify(children[j].name) == Some(key);
      var last := LastClassified(classify, children, j, key);
      ResolveLastWrite(classify, children, last, key);
    }
  }

  /** A child whose name contains no keyword changes nothing. */
  lemma NoKeywordNoChange(children: seq<Child>, c: Child)
    requires NoMatch(Lower(c.name))
    ensures Resolve(children + [c]) == Resolve(children)
  {
    ClassifyNone(c.name);
    assert (children + [c])[..|children|] == children;
  }

  /** A traversal in which every display name has a matching child resolves all twelve. */
  lemma ResolveCoversAll(children: seq<Child>)
    requires forall k :: 0 <= k < |PartNames| ==> HasChildFor(Classify, children, PartNames[k])
    ensures Resolve(children).Keys == PartNameSet
    ensures |Resolve(children)| == 12
  {
    forall k | 0 <= k < |PartNames|
      ensures PartNames[k] in Resolve(children)
    {
      ResolveDomain(Classify, children, PartNames[k]);
    }
    AllNamesMeansAllKeys(Resolve(children));
    PartNameSetSize();
  }

  lemma AllNamesMeansAllKeys(m: map<string, NodeId>)
    requires forall k :: 0 <= k < |PartNames| ==> PartNames[k] in m
    requires m.Keys <= PartNameSet
    ensures m.Keys == PartNameSet
  {
  }

  /** The traversal of a cross-section model with one child per keyword, named exactly
      after it, the `k`-th child having node `k`. */
  const KeywordModel: seq<Child> := seq(|Keywords|, i requires 0 <= i < |Keywords| => Child(Keywords[i], i))

  /** A model with one child per keyword resolves every part, each to that child. */
  lemma KeywordModelResolvesAll()
    ensures |Resolve(KeywordModel)| == 12
    ensures forall k :: 0 <= k < |PartNames| ==>
      PartNames[k] in Resolve(KeywordModel) && Resolve(KeywordModel)[PartNames[k]] == k
  {
    forall k | 0 <= k < |PartNames|
      ensures PartNames[k] in Resolve(KeywordModel) && Resolve(KeywordModel)[PartNames[k]] == k
    {
      KeywordChildResolves(k);
    }
    AllNamesMeansAllKeys(Resolve(KeywordModel));
    PartNameSetSize();
  }

  lemma KeywordChildResolves(k: int)
    requires 0 <= k < |PartNames|
    ensures HasChildFor(Classify, KeywordModel, PartNames[k])
    ensures PartNames[k] in Resolve(KeywordModel)
    ensures Resolve(KeywordModel)[PartNames[k]] == k
  {
    var children := KeywordModel;
    assert |children| == |Keywords|;
    PartNamesDistinct();
    KeywordResolvesToItsPart(k);
    assert children[k].name == Keywords[k];
    forall i | k < i < |children|
      ensures Classify(children[i].name) != Some(PartNames[k])
    {
      KeywordResolvesToItsPart(i);
    }
    ResolveLastWrite(Classify, children, k, PartNames[k]);
  }
}

=== FILE: session.dfy ===
/** The AR session coordinated by `HeartManager`: at most one heart model, a placement
    reticle, the delete and mode-toggle buttons, the floating panel, the anatomical labels and
    the pinch-to-scale gesture. The engine is abstracted away: the raycast result, the touch
    count and phase and the pinch distance are inputs of each frame, and the animator's current
    clip is an explicit mode that `Play` updates at once. */
module Session {
  import opened Options
  import opened Geometry
  import opened Classification
  import opened Resolution
  import opened Labels

  /** The animator clip that is playing: "HeartBeat" or "HeartCS". */
  datatype Mode = Beating | CrossSection

  /** The two sprites of the toggle button. */
  datatype ToggleSprite = ToggleOff | ToggleOn

  /** The two sprites the floating panel scrolls between. */
  datatype PanelSprite = HeartBeatSprite | HeartCSSprite

  /** The phase of a touch, as the input system reports it. */
  datatype TouchPhase = Began | Moved | Stationary | Ended | Canceled

  /** What instantiating the heart prefab yields: whether it carries an animator and both
      representations ("heart1" and "heart_cs1"), the clip its animator starts in, its
      authored scale, and the depth-first traversal of its cross-section representation. */
  datatype HeartPrefab = HeartPrefab(
    hasAnimator: bool,
    hasViews: bool,
    initialClip: Mode,
    scale: Vec3,
    crossSection: seq<Child>)

  /** The inspector configuration the session is started with. */
  datatype Scene = Scene(prefab: HeartPrefab, hasReticle: bool, hasPanel: bool)

  /** The placed heart: the prefab it came from, the clip playing, the animator's playback
      speed and the heart's local scale. */
  datatype Heart = Heart(prefab: HeartPrefab, mode: Mode, speed: real, scale: Vec3)

  /** The session state `HeartManager` keeps between frames. `panel` is the sprite the panel
      shows or is scrolling to; `parts` is the resolved anatomical part table. */
  datatype Session = Session(
    scene: Scene,
    heart: Option<Heart>,
    hasLight: bool,
    panel: Option<PanelSprite>,
    reticleVisible: bool,
    deleteVisible: bool,
    toggleVisible: bool,
    toggleSprite: ToggleSprite,
    parts: map<string, NodeId>,
    labels: set<Label>,
    pinchBaseline: real)

  /** What one frame of input reports: whether the centre-screen raycast hit a plane, how
      many touches are active, the phase of the first, and the distance between the first two. */
  datatype Frame = Frame(hit: bool, touchCount: nat, phase: TouchPhase, pinchDistance: Distance)

  /** A distance between two screen points (`Vector2.Distance`), never negative. */
  type Distance = r: real | 0.0 <= r

  const PinchSensitivity: real := 0.001
  const BeatSpeed: real := 1.8
  const CrossSectionSpeed: real := 1.0
  /** The playback speed of a freshly instantiated animator. */
  const InitialSpeed: real := 1.0

  /** `ToggleHeartCS` only acts when the animator and both representations were found. */
  predicate Rigged(h: Heart) {
    h.prefab.hasAnimator && h.prefab.hasViews
  }

  function SpriteFor(m: Mode): ToggleSprite {
    match m
    case Beating => ToggleOff
    case CrossSection => ToggleOn
  }

  function PanelSpriteFor(m: Mode): PanelSprite {
    match m
    case Beating => HeartBeatSprite
    case CrossSection => HeartCSSprite
  }

  function Flip(m: Mode): Mode {
    match m
    case Beating => CrossSection
    case CrossSection => Beating
  }

  /** The state after `Start`: buttons hidden, the toggle showing its "off" sprite, the
      reticle (if configured) spawned but inactive. */
  function Start(scene: Scene): (r: Session)
    ensures r.heart.None? && !r.reticleVisible && !r.deleteVisible && !r.toggleVisible
    ensures r.toggleSprite == ToggleOff && r.labels == {} && r.pinchBaseline == 0.0
  {
    Session(scene, None, false, None, false, false, false, ToggleOff, map[], {}, 0.0)
  }

  /** `PlayHeartCSAnimation`: show the cross-section, play its clip at normal speed, start the
      panel's scroll to the cross-section sprite, re-resolve the parts and spawn their labels. */
  function PlayCrossSection(s: Session): (r: Session)
    requires s.heart.Some?
    ensures r.heart.Some? && r.heart.value.mode == CrossSection
    ensures r.heart.value == s.heart.value.(mode := CrossSection, speed := CrossSectionSpeed)
    ensures r.parts == Resolve(s.heart.value.prefab.crossSection)
    ensures r.labels == s.labels + SpawnLabels(r.parts)
    ensures r.panel.Some? <==> s.panel.Some?
    ensures r.panel.Some? ==> r.panel.value == HeartCSSprite
    ensures r.toggleSprite == s.toggleSprite && r.reticleVisible == s.reticleVisible
    ensures r == s.(heart := r.heart, panel := r.panel, parts := r.parts, labels := r.labels)
  {
    var h := s.heart.value;
    var parts := Resolve(h.prefab.crossSection);
    s.(heart := Some(h.(mode := CrossSection, speed := CrossSectionSpeed)),
       panel := if s.panel.Some? then Some(HeartCSSprite) else None,
       parts := parts,
       labels := s.labels + SpawnLabels(parts))
  }

  /** `PlayHeartBeatAnimation`: destroy every label, show the full heart, play the beating
      clip faster, and start the panel's scroll to the beating sprite. */
  function PlayBeating(s: Session): (r: Session)
    requires s.heart.Some?
    ensures r.heart.Some? && r.heart.value.mode == Beating
    ensures r.heart.value == s.heart.value.(mode := Beating, speed := BeatSpeed)
    ensures r.labels == {} && r.parts == s.parts
    ensures r.panel.Some? <==> s.panel.Some?
    ensures r.panel.Some? ==> r.panel.value == HeartBeatSprite
    ensures r.toggleSprite == s.toggleSprite && r.reticleVisible == s.reticleVisible
    ensures r == s.(heart := r.heart, panel := r.panel, parts := r.parts, labels := r.labels)
  {
    var h := s.heart.value;
    s.(heart := Some(h.(mode := Beating, speed := BeatSpeed)),
       panel := if s.panel.Some? then Some(HeartBeatSprite) else None,
       labels := {})
  }

  /** `ToggleHeartCS(enable)`: switch to the requested mode unless it is already playing;
      does nothing without a rigged heart. */
  function SetCrossSection(s: Session, enable: bool): (r: Session)
    ensures s.heart.None? || !Rigged(s.heart.value) ==> r == s
    ensures s.heart.Some? && Rigged(s.heart.value) ==>
      r.heart.Some? && r.heart.value.mode == (if enable then CrossSection else Beating)
    ensures s.heart.Some? && s.heart.value.mode == (if enable then CrossSection else Beating) ==> r == s
    ensures r.heart.Some? <==> s.heart.Some?
    ensures r.scene == s.scene && r.hasLight == s.hasLight && r.toggleSprite == s.toggleSprite
    ensures r.reticleVisible == s.reticleVisible && r.pinchBaseline == s.pinchBaseline
    ensures r.deleteVisible == s.deleteVisible && r.toggleVisible == s.toggleVisible
  {
    if s.heart.None? || !Rigged(s.heart.value) then s
    else if enable && s.heart.value.mode != CrossSection then PlayCrossSection(s)
    else if !enable && s.heart.value.mode != Beating then PlayBeating(s)
    else s
  }

  /** `OnToggleModePressed`: with a heart and an animator, request the mode the animator is
      NOT in and show the matching button sprite; otherwise nothing happens. */
  function Toggle(s: Session): (r: Session)
    ensures s.heart.None? || !s.heart.value.prefab.hasAnimator ==> r == s
    ensures s.heart.Some? && s.heart.value.prefab.hasAnimator ==>
      r.toggleSprite == SpriteFor(Flip(s.heart.value.mode))
    ensures s.heart.Some? && Rigged(s.heart.value) ==>
      r.heart.Some? && r.heart.value.mode == Flip(s.heart.value.mode) &&
      r.toggleSprite == SpriteFor(r.heart.value.mode)
    ensures s.heart.Some? && !s.heart.value.prefab.hasViews ==> r.heart == s.heart
    ensures r.heart.Some? <==> s.heart.Some?
    ensures r.scene == s.scene && r.hasLight == s.hasLight && r.reticleVisible == s.reticleVisible
    ensures r.deleteVisible == s.deleteVisible && r.toggleVisible == s.toggleVisible
    ensures r.pinchBaseline == s.pinchBaseline
  {
    if s.heart.None? || !s.heart.value.prefab.hasAnimator then s
    else
      var goingToCS := s.heart.value.mode != CrossSection;
      SetCrossSection(s, goingToCS).(toggleSprite := if goingToCS then ToggleOn else ToggleOff)
  }

  /** `UpdateReticle`: the reticle is shown exactly when it exists, no heart is placed and
      the centre-screen raycast hits a plane. */
  function UpdateReticle(s: Session, hit: bool): (r: Session)
    ensures s.scene.hasReticle ==> (r.reticleVisible <==> s.heart.None? && hit)
    ensures !s.scene.hasReticle ==> r == s
    ensures r == s.(reticleVisible := r.reticleVisible)
  {
    if !s.scene.hasReticle then s
    else if s.heart.Some? then s.(reticleVisible := false)
    else s.(reticleVisible := hit)
  }

  /** `PlaceHeartModel`: instantiate the heart and its light, force the beating mode, attach
      the panel (showing the beating sprite) if it is configured and missing, show both
      buttons with the toggle "off", and hide the reticle. */
  function PlaceHeart(s: Session): (r: Session)
    requires s.heart.None?
    ensures r.heart.Some? && r.heart.value.prefab == s.scene.prefab
    ensures r.heart.value.scale == s.scene.prefab.scale
    ensures Rigged(r.heart.value) ==> r.heart.value.mode == Beating
    ensures !Rigged(r.heart.value) ==> r.heart.value.mode == s.scene.prefab.initialClip
    ensures Rigged(r.heart.value) && s.scene.prefab.initialClip == Beating ==>
      r.heart.value.speed == InitialSpeed
    ensures Rigged(r.heart.value) && s.scene.prefab.initialClip == CrossSection ==>
      r.heart.value.speed == BeatSpeed
    ensures r.hasLight && r.deleteVisible && r.toggleVisible && !r.reticleVisible
    ensures r.toggleSprite == ToggleOff
    ensures r.labels <= s.labels
    ensures r.panel.Some? <==> s.panel.Some? || s.scene.hasPanel
    ensures s.panel.None? && s.scene.hasPanel ==> r.panel == Some(HeartBeatSprite)
    ensures r.scene == s.scene && r.pinchBaseline == s.pinchBaseline
    ensures r.parts == s.parts
  {
    var prefab := s.scene.prefab;
    var placed := s.(heart := Some(Heart(prefab, prefab.initialClip, InitialSpeed, prefab.scale)),
                     hasLight := true);
    var beating := SetCrossSection(placed, false);
    var withPanel := if s.scene.hasPanel && beating.panel.None? then beating.(panel := Some(HeartBeatSprite))
                     else beating;
    withPanel.(deleteVisible := true, toggleVisible := true, toggleSprite := ToggleOff,
               reticleVisible := false)
  }

  /** `HandlePinchZoom`: with two touches and a heart, every frame after the first of the
      gesture adds the change in finger distance, times the sensitivity, to all three scale
      axes (no clamp); otherwise the gesture's baseline is reset. */
  function Pinch(s: Session, touchCount: nat, distance: real): (r: Session)
    ensures touchCount != 2 || s.heart.None? ==> r == s.(pinchBaseline := 0.0)
    ensures touchCount == 2 && s.heart.Some? ==>
      r.pinchBaseline == distance && r.heart.Some? &&
      r.heart.value == s.heart.value.(scale := r.heart.value.scale)
    ensures touchCount == 2 && s.heart.Some? && s.pinchBaseline <= 0.0 ==> r.heart == s.heart
    ensures touchCount == 2 && s.heart.Some? && s.pinchBaseline > 0.0 ==>
      r.heart.value.scale.x - s.heart.value.scale.x == (distance - s.pinchBaseline) * PinchSensitivity &&
      r.heart.value.scale.y - s.heart.value.scale.y == (distance - s.pinchBaseline) * PinchSensitivity &&
      r.heart.value.scale.z - s.heart.value.scale.z == (distance - s.pinchBaseline) * PinchSensitivity
    ensures r == s.(heart := r.heart, pinchBaseline := r.pinchBaseline)
  {
    if touchCount == 2 && s.heart.Some? then
      var h := s.heart.value;
      var scaled := if s.pinchBaseline > 0.0
                    then h.(scale := h.scale.AddUniform((distance - s.pinchBaseline) * PinchSensitivity))
                    else h;
      s.(heart := Some(scaled), pinchBaseline := distance)
    else
      s.(pinchBaseline := 0.0)
  }

  /** A frame would dereference a missing reticle (a single touch while no heart is placed
      and no reticle prefab is configured); the session cannot take such a frame. */
  predicate CanTick(s: Session, f: Frame) {
    s.scene.hasReticle || f.touchCount != 1 || s.heart.Some?
  }

  /** One call of `Update`: refresh the reticle, place the heart on a single fresh touch while
      the reticle is shown, then handle the pinch. Placement shows both buttons, creates the
      light and forces the beating mode. An existing heart changes only on a two-touch frame
      that continues a pinch, and then by the change in finger distance times the
      sensitivity. Nothing else changes. */
  function Tick(s: Session, f: Frame): (r: Session)
    requires CanTick(s, f)
    ensures s.scene.hasReticle ==> (r.reticleVisible <==> r.heart.None? && f.hit)
    ensures (s.heart.None? && r.heart.Some?) <==>
      (s.heart.None? && f.touchCount == 1 && f.phase == Began && s.scene.hasReticle && f.hit)
    ensures s.heart.Some? ==> r.heart.Some? && r.heart.value == s.heart.value.(scale := r.heart.value.scale)
    ensures s.heart.Some? ==> r.labels == s.labels && r.parts == s.parts && r.toggleSprite == s.toggleSprite
    ensures s.heart.Some? ==> r.panel == s.panel && r.deleteVisible == s.deleteVisible
    ensures f.touchCount != 2 || r.heart.None? ==> r.pinchBaseline == 0.0
    ensures f.touchCount == 2 && r.heart.Some? ==> r.pinchBaseline == f.pinchDistance
    ensures s.heart.Some? && (f.touchCount != 2 || s.pinchBaseline <= 0.0) ==> r.heart == s.heart
    ensures s.heart.Some? && f.touchCount == 2 && s.pinchBaseline > 0.0 ==>
      r.heart.value.scale == s.heart.value.scale.AddUniform((f.pinchDistance - s.pinchBaseline) * PinchSensitivity)
    ensures s.heart.None? && r.heart.Some? ==>
      && r.deleteVisible && r.toggleVisible && r.hasLight && r.toggleSprite == ToggleOff
      && (Rigged(r.heart.value) ==> r.heart.value.mode == Beating)
    ensures s.heart.None? && r.heart.None? ==> r == s.(reticleVisible := r.reticleVisible, pinchBaseline := 0.0)
    ensures s.heart.Some? ==> r == s.(heart := r.heart, reticleVisible := r.reticleVisible, pinchBaseline := r.pinchBaseline)
  {
    var s1 := UpdateReticle(s, f.hit);
    var s2 := if f.touchCount == 1 && s1.heart.None? && s1.reticleVisible && f.phase == Began
              then PlaceHeart(s1) else s1;
    Pinch(s2, f.touchCount, f.pinchDistance)
  }

  /** `DeleteHeart`: destroy every label, the heart, its light and the panel, hide both
      buttons and show the reticle again. Nothing else changes. */
  function Delete(s: Session): (r: Session)
    ensures r.heart.None? && r.labels == {} && !r.hasLight && r.panel.None?
    ensures !r.deleteVisible && !r.toggleVisible
    ensures s.scene.hasReticle ==> r.reticleVisible
    ensures !s.scene.hasReticle ==> r.reticleVisible == s.reticleVisible
    ensures r.scene == s.scene && r.parts == s.parts && r.toggleSprite == s.toggleSprite
    ensures r.pinchBaseline == s.pinchBaseline
  {
    s.(heart := None, labels := {}, hasLight := false, panel := None,
       deleteVisible := false, toggleVisible := false,
       reticleVisible := s.scene.hasReticle || s.reticleVisible)
  }
}

=== FILE: sessionproofs.dfy ===
/** Properties of the session that span several events: the invariant every reachable state
    keeps, idempotence of delete, the toggle round trip, and the placement and pinch scenarios. */
module SessionProofs {
  import opened Options
  import opened Geometry
  import opened Classification
  import opened Resolution
  import opened Labels
  import opened Session

  /** What holds of every heart the session has placed. */
  ghost predicate HeartInv(s: Session, h: Heart) {
    && h.prefab == s.scene.prefab
    && !s.reticleVisible
    && (!Rigged(h) ==> s.labels == {})
    && (Rigged(h) ==>
          && s.toggleSprite == SpriteFor(h.mode)
          && (s.panel.Some? ==> s.panel.value == PanelSpriteFor(h.mode))
          && (h.mode == Beating ==> s.labels == {} && (h.speed == BeatSpeed || h.speed == InitialSpeed))
          && (h.mode == CrossSection ==>
                && h.speed == CrossSectionSpeed
                && s.parts == Resolve(h.prefab.crossSection)
                && s.labels == SpawnLabels(s.parts)))
  }

  /** The session invariant: at most one heart, and the light, panel and buttons exist
      exactly while it does; labels exist only while a rigged heart shows its cross-section,
      and then they are exactly one per resolved part; the toggle sprite and the panel reflect
      the animator's actual clip; the reticle is never shown over a placed heart. */
  ghost predicate Inv(s: Session) {
    && (!s.scene.hasReticle ==> !s.reticleVisible)
    && s.deleteVisible == s.heart.Some?
    && s.toggleVisible == s.heart.Some?
    && s.hasLight == s.heart.Some?
    && (s.panel.Some? <==> s.heart.Some? && s.scene.hasPanel)
    && (s.heart.None? ==> s.labels == {})
    && (s.heart.Some? ==> HeartInv(s, s.heart.value))
  }

  lemma StartInv(scene: Scene)
    ensures Inv(Start(scene))
  {
  }

  lemma PlaceHeartInv(s: Session)
    requires Inv(s) && s.heart.None?
    ensures Inv(PlaceHeart(s))
    ensures PlaceHeart(s).labels == {}
  {
  }

  lemma {:induction false} TickInv(s: Session, f: Frame)
    requires Inv(s) && CanTick(s, f)
    ensures Inv(Tick(s, f))
  {
    var s1 := UpdateReticle(s, f.hit);
    assert Inv(s1);
    if f.touchCount == 1 && s1.heart.None? && s1.reticleVisible && f.phase == Began {
      PlaceHeartInv(s1);
    }
  }

  lemma {:induction false} ToggleInv(s: Session)
    requires Inv(s)
    ensures Inv(Toggle(s))
  {
    if s.heart.Some? && Rigged(s.heart.value) {
      var r := Toggle(s);
      if s.heart.value.mode == Beating {
        assert r == PlayCrossSection(s).(toggleSprite := ToggleOn);
        assert r.labels == SpawnLabels(r.parts);
      } else {
        assert r == PlayBeating(s).(toggleSprite := ToggleOff);
      }
      assert HeartInv(r, r.heart.value);
    }
  }

  lemma DeleteInv(s: Session)
    requires Inv(s)
    ensures Inv(Delete(s))
  {
  }

  /** Deleting twice is the same as deleting once. */
  lemma DeleteIdempotent(s: Session)
    ensures Delete(Delete(s)) == Delete(s)
  {
  }

  /** With a heart placed, taps never place a second one: across any run of frames the heart
      keeps its prefab, its clip and its speed, and only its scale can change. */
  lemma {:induction false} FramesKeepHeart(s: Session, frames: seq<Frame>)
    requires s.heart.Some?
    ensures RunFrames(s, frames).heart.value ==
      s.heart.value.(scale := RunFrames(s, frames).heart.value.scale)
    decreases |frames|
  {
    if |frames| > 0 {
      var t := Tick(s, frames[0]);
      FramesKeepHeart(t, frames[1..]);
    }
  }

  /** A run of frames with a heart placed (every such frame can be taken). */
  function RunFrames(s: Session, frames: seq<Frame>): (r: Session)
    requires s.heart.Some?
    ensures r.heart.Some?
    decreases |frames|
  {
    if |frames| == 0 then s else RunFrames(Tick(s, frames[0]), frames[1..])
  }

  /** Toggling from the beating mode shows the cross-section with exactly one label per part
      resolved from the cross-section model; toggling again returns to beating with no
      labels, the toggle "off" and everything but the part table and the speed as before. */
  lemma ToggleTwiceFromBeating(s: Session)
    requires Inv(s) && s.heart.Some? && Rigged(s.heart.value) && s.heart.value.mode == Beating
    ensures Toggle(s).heart.value.mode == CrossSection
    ensures Toggle(s).labels == SpawnLabels(Resolve(s.heart.value.prefab.crossSection))
    ensures |Toggle(s).labels| == |Resolve(s.heart.value.prefab.crossSection)| <= 12
    ensures Toggle(Toggle(s)) ==
      s.(heart := Some(s.heart.value.(speed := BeatSpeed)),
         parts := Resolve(s.heart.value.prefab.crossSection))
  {
    var h := s.heart.value;
    var parts := Resolve(h.prefab.crossSection);
    var t := Toggle(s);
    assert t == PlayCrossSection(s).(toggleSprite := ToggleOn);
    assert t.labels == SpawnLabels(parts);
    var u := Toggle(t);
    assert u == PlayBeating(t).(toggleSprite := ToggleOff);
  }

  /** From the cross-section mode, toggling twice restores the session exactly. */
  lemma ToggleTwiceFromCrossSection(s: Session)
    requires Inv(s) && s.heart.Some? && Rigged(s.heart.value) && s.heart.value.mode == CrossSection
    ensures Toggle(s).labels == {} && Toggle(s).heart.value.mode == Beating
    ensures Toggle(Toggle(s)) == s
  {
    assert Toggle(s) == PlayBeating(s).(toggleSprite := ToggleOff);
  }

  /** The events the session reacts to: a frame, or a press of one of the two buttons. */
  datatype Event = Update(frame: Frame) | DeletePressed | TogglePressed

  /** One event; `None` when the frame would dereference the missing reticle. */
  function Step(s: Session, e: Event): (r: Option<Session>)
    ensures e.Update? ==> (r.Some? <==> CanTick(s, e.frame))
    ensures !e.Update? ==> r.Some?
  {
    match e
    case Update(f) => if CanTick(s, f) then Some(Tick(s, f)) else None
    case DeletePressed => Some(Delete(s))
    case TogglePressed => Some(Toggle(s))
  }

  /** A sequence of events, stopping at the first one the session cannot take. */
  function Run(s: Session, events: seq<Event>): Option<Session>
    decreases |events|
  {
    if |events| == 0 then Some(s)
    else match Step(s, events[0])
      case None => None
      case Some(t) => Run(t, events[1..])
  }

  /** Every state reachable from `Start` satisfies the invariant. */
  lemma {:induction false} RunInv(s: Session, events: seq<Event>)
    requires Inv(s)
    ensures Run(s, events).Some? ==> Inv(Run(s, events).value)
    decreases |events|
  {
    if |events| > 0 {
      var e := events[0];
      match e
      case Update(f) =>
        if CanTick(s, f) {
          TickInv(s, f);
          RunInv(Tick(s, f), events[1..]);
        }
      case DeletePressed =>
        DeleteInv(s);
        RunInv(Delete(s), events[1..]);
      case TogglePressed =>
        ToggleInv(s);
        RunInv(Toggle(s), events[1..]);
    }
  }

  /** Every reachable session satisfies the invariant, with a configured reticle or not. */
  lemma ReachableInv(scene: Scene, events: seq<Event>)
    ensures Run(Start(scene), events).Some? ==> Inv(Run(Start(scene), events).value)
  {
    StartInv(scene);
    RunInv(Start(scene), events);
  }

  /** A tap on a plane right after start places the heart in the beating mode with both
      buttons shown, the toggle "off", no labels and the reticle hidden; the same tap in the
      next frame changes nothing at all. */
  lemma FirstTapPlacesHeart(scene: Scene, touch: Frame)
    requires scene.hasReticle
    requires touch.hit && touch.touchCount == 1 && touch.phase == Began
    ensures var t := Tick(Start(scene), touch);
      && t.heart.Some? && t.deleteVisible && t.toggleVisible && !t.reticleVisible
      && t.toggleSprite == ToggleOff && t.labels == {}
      && (Rigged(t.heart.value) ==> t.heart.value.mode == Beating)
      && Tick(t, touch) == t
  {
    StartInv(scene);
    TickInv(Start(scene), touch);
  }

  /** A pinch: the first frame of a two-touch gesture leaves the scale alone, the next adds
      the change in distance times the sensitivity to every axis. */
  lemma PinchGesture(s: Session, d1: Distance, d2: Distance, hit: bool, phase: TouchPhase)
    requires s.heart.Some? && s.pinchBaseline == 0.0 && d1 > 0.0
    ensures var t := Tick(s, Frame(hit, 2, phase, d1));
      var u := Tick(t, Frame(hit, 2, phase, d2));
      && t.heart.value.scale == s.heart.value.scale
      && u.heart.value.scale == s.heart.value.scale.AddUniform((d2 - d1) * PinchSensitivity)
      && u.pinchBaseline == d2
  {
  }

  /** With a cross-section model carrying one child per keyword, toggling a freshly placed
      rigged heart spawns twelve labels, one per display name, and toggling again removes
      them all. */
  lemma TwelveLabelsScenario(s: Session)
    requires Inv(s) && s.heart.Some? && Rigged(s.heart.value) && s.heart.value.mode == Beating
    requires s.heart.value.prefab.crossSection == KeywordModel
    ensures |Toggle(s).labels| == 12
    ensures forall l :: l in Toggle(s).labels ==> l.text in PartNameSet
    ensures Toggle(Toggle(s)).labels == {}
  {
    KeywordModelResolvesAll();
    ToggleTwiceFromBeating(s);
  }

  /** The pinch has no clamp: pinching in far enough in one frame drives the scale to zero
      or below (the same change is added to every axis). */
  lemma PinchUnclamped(s: Session, d: Distance)
    requires s.heart.Some? && s.pinchBaseline > 0.0
    requires d <= s.pinchBaseline - 1000.0 * s.heart.value.scale.x
    ensures Tick(s, Frame(false, 2, Moved, d)).heart.value.scale.x <= 0.0
  {
  }
}

=== FILE: setfacts.dfy ===
/** Cardinality facts about finite sets that the part and label tables need. */
module SetFacts {

  lemma {:induction false} SubsetCardinality<T>(a: set<T>, b: set<T>)
    requires a <= b
    ensures |a| <= |b|
    decreases |b|
  {
    if a != {} {
      var x :| x in a;
      SubsetCardinality(a - {x}, b - {x});
    }
  }

  /** The elements of a sequence without repetitions. */
  ghost predicate Distinct<T>(s: seq<T>) {
    forall i, j :: 0 <= i < j < |s| ==> s[i] != s[j]
  }

  lemma {:induction false} DistinctSeqCardinality<T>(s: seq<T>)
    requires Distinct(s)
    ensures |set x | x in s| == |s|
  {
    if |s| > 0 {
      var rest := s[1..];
      DistinctSeqCardinality(rest);
      assert (set x | x in s) == {s[0]} + (set x | x in rest);
      assert s[0] !in (set x | x in rest);
    }
  }
}

=== FILE: text.dfy ===
/** The string operations part resolution relies on: lower-casing and substring search.
    Lower-casing is ASCII only; culture-specific case mappings are not modelled. */
module Text {

  predicate IsUpper(c: char) {
    'A' <= c <= 'Z'
  }

  /** ASCII lower-casing of one character. */
  function LowerChar(c: char): (r: char)
    ensures !IsUpper(r)
    ensures IsUpper(c) ==> r as int == c as int + 32
    ensures !IsUpper(c) ==> r == c
  {
    if IsUpper(c) then (c as int + 32) as char else c
  }

  /** ASCII lower-casing of a string, character by character. */
  function Lower(s: string): (r: string)
    ensures |r| == |s|
    ensures forall i :: 0 <= i < |s| ==> r[i] == LowerChar(s[i])
  {
    if |s| == 0 then [] else [LowerChar(s[0])] + Lower(s[1..])
  }

  /** A string with no upper-case ASCII letter. */
  predicate IsLowerCase(s: string) {
    forall i :: 0 <= i < |s| ==> !IsUpper(s[i])
  }

  lemma LowerIsLowerCase(s: string)
    ensures IsLowerCase(Lower(s))
  {
  }

  /** Lower-casing leaves a lower-case string alone, so it is idempotent. */
  lemma LowerFixesLowerCase(s: string)
    requires IsLowerCase(s)
    ensures Lower(s) == s
  {
  }

  lemma LowerIdempotent(s: string)
    ensures Lower(Lower(s)) == Lower(s)
  {
    LowerIsLowerCase(s);
    LowerFixesLowerCase(Lower(s));
  }

  /** `sub` occurs in `s` starting at position `i`, compared from offset `j` on. */
  predicate MatchesFrom(s: string, sub: string, i: nat, j: nat)
    requires i + |sub| <= |s| && j <= |sub|
    decreases |sub| - j
  {
    j == |sub| || (s[i + j] == sub[j] && MatchesFrom(s, sub, i, j + 1))
  }

  /** `sub` occurs in `s` at some position at or after `i`. */
  predicate ContainsFrom(s: string, sub: string, i: nat)
    decreases |s| - i
  {
    i + |sub| <= |s| && (MatchesFrom(s, sub, i, 0) || ContainsFrom(s, sub, i + 1))
  }

  /** `String.Contains`: an ordinal (character by character) substring test. A string only
      contains strings no longer than itself; `ContainsMeansOccurrence` gives its full meaning. */
  predicate Contains(s: string, sub: string): (b: bool)
    ensures b ==> |sub| <= |s|
  {
    ContainsFrom(s, sub, 0)
  }

  /** The reference meaning of a substring occurrence. */
  ghost predicate OccursAt(s: string, sub: string, i: int) {
    0 <= i && i + |sub| <= |s| && s[i..i + |sub|] == sub
  }

  lemma {:induction false} MatchesFromMeansSlice(s: string, sub: string, i: nat, j: nat)
    requires i + |sub| <= |s| && j <= |sub|
    ensures MatchesFrom(s, sub, i, j) <==> s[i + j..i + |sub|] == sub[j..]
    decreases |sub| - j
  {
    if j < |sub| {
      MatchesFromMeansSlice(s, sub, i, j + 1);
      assert s[i + j..i + |sub|] == [s[i + j]] + s[i + j + 1..i + |sub|];
      assert sub[j..] == [sub[j]] + sub[j + 1..];
    }
  }

  lemma {:induction false} ContainsFromMeansOccurrence(s: string, sub: string, i: nat)
    ensures ContainsFrom(s, sub, i) <==> exists k :: i <= k && OccursAt(s, sub, k)
    decreases |s| - i
  {
    if i + |sub| <= |s| {
      MatchesFromMeansSlice(s, sub, i, 0);
      ContainsFromMeansOccurrence(s, sub, i + 1);
      if MatchesFrom(s, sub, i, 0) {
        assert sub[0..] == sub;
        assert OccursAt(s, sub, i);
      }
      if exists k :: i <= k && OccursAt(s, sub, k) {
        var k :| i <= k && OccursAt(s, sub, k);
        if k > i {
          assert i + 1 <= k;
        }
      }
    }
  }

  /** `Contains` agrees with the reference definition: some slice of `s` equals `sub`. */
  lemma ContainsMeansOccurrence(s: string, sub: string)
    ensures Contains(s, sub) <==> exists k :: OccursAt(s, sub, k)
  {
    ContainsFromMeansOccurrence(s, sub, 0);
  }

  /** Every string contains itself. */
  lemma ContainsSelf(s: string)
    ensures Contains(s, s)
  {
    ContainsMeansOccurrence(s, s);
    assert OccursAt(s, s, 0);
  }
}
